=== FILE: README.md ===
# BidBuy marketplace back end: verified model of the like toggle, article authoring and refresh-token rotation

BidBuy is the back end of a peer-to-peer second-hand marketplace. This
project models three of its stateful parts in Dafny and proves what
each promises.

- **Likes and listings (`UserService`).**
  - A logged-in user likes or un-likes someone else's article. The
    article's denormalised `likeCount` follows the like rows.
  - The listing endpoints share three pure helpers:
    - the choice of query order from the `sorting` parameter;
    - the "time ago" label (`3분 전`, `2일 전`, …);
    - the decoding of the positional `Object[]` rows the listing queries
      return, whose trailing `isLiked`/`isReviewed` columns are read only
      when present.
- **Article authoring (`ArticleService`).**
  - Creating an article also uploads its images and saves one image
    record per stored URL.
  - Updating overlays the non-null request fields on the article. Its
    images are replaced only when a non-empty file array arrives.
  - Deleting removes the article's blobs, its image records and the
    article itself.
- **Refresh-token rotation (`RefreshTokenController`).**
  - The endpoint reads the last `refresh` cookie.
  - It rejects, in order, a missing, expired, wrongly categorised or
    unknown token.
  - Otherwise it replaces the stored token by a newly minted one. It
    answers with a bearer access token and an HttpOnly refresh cookie.

Files:

- `domain.dfy` (`Domain`): shared types and Java `int` arithmetic.
  - `Option` stands for Java null and `Result` for an exception.
  - It also holds the ids, the article row and the caller principal.
  - Java arithmetic covers narrowing a long to an int and truncating
    integer division.
- `java_text.dfy` (`JavaText`): the decimal text Java writes when a
  number is concatenated to a string, and a parser that reads it back.
- `user_listing.dfy` (`UserListing`): the sort dispatch, the time-ago
  buckets and the row decoders.
- `like_registry.dfy` (`LikeRegistry`):
  - `Toggle` specifies the whole effect of one like request on the user,
    article and like tables;
  - the `UserService` class carries the imperative `UpdateLikeArticles`
    and is proved against `Toggle`.
- `article_authoring.dfy` (`ArticleAuthoring`):
  - `ImageUploadService` is the object store, a map from URL to file;
  - `ArticleService` holds the article table and the image-record list.
    Its `Valid()` invariant says:
    - every record belongs to an existing article;
    - every record points at a stored blob;
    - no blob is shared between articles.
- `refresh_rotation.dfy` (`RefreshRotation`):
  - `Rotate` specifies one call of the endpoint;
  - the `RefreshTokenRepository` and `RefreshTokenController` classes
    carry the imperative code and are proved against `Rotate`.

Time is an explicit `now` parameter: seconds in the listing and article
code, milliseconds in the token code. The security-context principal is
an explicit `Principal` parameter, which is either anonymous or a user
id.

Departures from the marketplace's intended design that the code makes,
and that the model therefore makes too:

- `createArticle` copies `tradeStatus` from the request. It does not
  force the article to SALE.
- `updateLikeArticles` has a fourth failure before the article checks:
  the caller's user row is missing.
- `deleteArticle` looks the article up before it reads the principal. An
  anonymous caller on a missing article therefore gets "not exist". In
  `updateArticle` the principal is read first.
- An anonymous caller of `createArticle`, `updateArticle` or
  `deleteArticle` makes the source's cast of the principal fail. The
  model reports that failure as `AnonymousCaller`.

## Model

| member | source | states |
|---|---|---|
| Domain.ToInt32 | src/main/java/org/duckdns/bidbuy/app/user/service/UserService.java:324 | the `(int)` narrowing lands in the 32-bit range, agrees with its argument modulo 2^32, and is the identity on values already in range |
| Domain.JavaDiv | src/main/java/org/duckdns/bidbuy/global/auth/controller/RefreshTokenController.java:121 | Java division truncates toward zero: the remainder has the sign of the dividend and is smaller than the divisor |
| JavaText.LongToString | src/main/java/org/duckdns/bidbuy/app/user/service/UserService.java:322 | the text a long becomes when concatenated to a string: non-empty, starting with a minus sign exactly when the number is negative, and digits otherwise, with no leading zero (the text starts with '0' only for zero itself); `JavaText.LongToStringRoundTrip` shows it loses nothing |
| JavaText.LongToStringRoundTrip | src/main/java/org/duckdns/bidbuy/app/user/service/UserService.java:322 | the decimal text of any long (sign included) parses back to the same number |
| UserListing.SortFor | src/main/java/org/duckdns/bidbuy/app/user/service/UserService.java:125-137 | "high-price" selects price-descending and "low-price" price-ascending, each if and only if; "latest" and every other string select latest-first |
| UserListing.SortKeySelectsOrder | src/main/java/org/duckdns/bidbuy/app/user/service/UserService.java:208-220 | every order is reached by its own request value, and no two orders share a value |
| UserListing.UserSalesQuery | src/main/java/org/duckdns/bidbuy/app/user/service/UserService.java:152-186 | a logged-in viewer gets the viewer-aware query family with their own id and an anonymous one the plain family, each in the order the sort dispatch picks |
| UserListing.Bucket | src/main/java/org/duckdns/bidbuy/app/user/service/UserService.java:317-330 | each unit holds exactly on its range: seconds below 60 (negatives too) are kept as they are, minutes are 1..59 and hours 1..23 with amount*unit <= s < (amount+1)*unit, days from 86400 on (exact while the count fits an int) |
| UserListing.LabelRoundTrip | src/main/java/org/duckdns/bidbuy/app/user/service/UserService.java:321-329 | a label's text reads back to its number and unit, so two different buckets never produce the same label |
| UserListing.GetTimeAgo | src/main/java/org/duckdns/bidbuy/app/user/service/UserService.java:317-330 | `getTimeAgo` itself: the label text of the bucket of `now - createdDate`; it has no contract of its own, and `UserListing.GetTimeAgoReadsBack` states what the label means |
| UserListing.GetTimeAgoReadsBack | src/main/java/org/duckdns/bidbuy/app/user/service/UserService.java:317-330 | the label `getTimeAgo` returns reads back to exactly the bucket of the elapsed seconds |
| UserListing.FirstFault | src/main/java/org/duckdns/bidbuy/app/user/service/UserService.java:334-342 | reading the columns in order fails at the first index past the row or at the first cast that does not fit, and succeeds if and only if every column is present and castable |
| UserListing.CreateResponse | src/main/java/org/duckdns/bidbuy/app/user/service/UserService.java:333-347 | decoding succeeds if and only if there are at least 8 castable columns, a 9th column (when present) is a Boolean and the creation date is not null; a short but well-typed row fails with index out of bounds; `isLiked` is set only when the row has more than 8 columns |
| UserListing.CreateBuysResponse | src/main/java/org/duckdns/bidbuy/app/user/service/UserService.java:349-364 | decoding succeeds if and only if there are at least 8 castable columns, a 9th and a 10th column (each when present) are Booleans and the creation date is not null; a short but well-typed row fails with index out of bounds; `isReviewed` is set only with more than 9 columns and `isLiked` only with more than 8 |
| UserListing.CreateResponseReadsColumns | src/main/java/org/duckdns/bidbuy/app/user/service/UserService.java:333-347 | for any projected row, SQL nulls included (a null becomes a null field), each of the 8 columns lands in the field of the same name and the time-ago label comes from the creation date; `isLiked` is the 9th column when the row has one, null or not, and null when the row has only 8 |
| UserListing.CreateBuysResponseReadsColumns | src/main/java/org/duckdns/bidbuy/app/user/service/UserService.java:349-364 | the same for a purchases row of 8, 9, 10 or more columns: `isLiked` and `isReviewed` are the 9th and 10th columns when present, each possibly null, and null when absent |
| UserListing.BuysDecodingExtendsSales | src/main/java/org/duckdns/bidbuy/app/user/service/UserService.java:349-364 | every row the purchases decoder accepts is accepted by the sales decoder, with the same nine shared fields |
| LikeRegistry.Toggle | src/main/java/org/duckdns/bidbuy/app/user/service/UserService.java:256-288 | each error, if and only if its condition holds in source order (anonymous, user missing, article missing, own article), leaves every table unchanged; success keeps the users and the article keys, and the answer is "removed" exactly when the caller's row existed, after which the row is present exactly when the answer is "added" |
| LikeRegistry.ToggleFlipsOneRow | src/main/java/org/duckdns/bidbuy/app/user/service/UserService.java:274-287 | removal deletes exactly the caller's row and lowers that article's count by one; addition inserts exactly that row and raises the count by one; the article's other fields and every other article stay as they were |
| LikeRegistry.ToggleKeepsCountsAgree | src/main/java/org/duckdns/bidbuy/app/user/service/UserService.java:274-287 | if every article's `likeCount` equalled its number of like rows before a call, it does after, and the like rows of every other article are untouched |
| LikeRegistry.ToggleTwiceRestores | src/main/java/org/duckdns/bidbuy/app/user/service/UserService.java:274-287 | a second toggle by the same user on the same article succeeds with the opposite answer and restores all three tables |
| LikeRegistry.UserService.UpdateLikeArticles | src/main/java/org/duckdns/bidbuy/app/user/service/UserService.java:256-288 | the imperative toggle leaves the tables that `Toggle` specifies, answers with the removed or added message of `Toggle`'s outcome, and fails with `Toggle`'s error |
| ArticleAuthoring.NewArticle | src/main/java/org/duckdns/bidbuy/app/article/service/ArticleService.java:42-57 | the new article carries exactly the request's descriptive fields (trade status included), the caller as writer, zero view and like counts, and both timestamps at now |
| ArticleAuthoring.Merge | src/main/java/org/duckdns/bidbuy/app/article/service/ArticleService.java:89-105 | every descriptive field is the request's value where it is non-null and the old value otherwise; id, writer, both counters and creation date are kept; the modification date becomes now |
| ArticleAuthoring.MergeNoChanges | src/main/java/org/duckdns/bidbuy/app/article/service/ArticleService.java:89-105 | an all-null request changes nothing but the modification date |
| ArticleAuthoring.MergeTwice | src/main/java/org/duckdns/bidbuy/app/article/service/ArticleService.java:89-105 | two updates in a row equal one update whose request lays the second over the first |
| ArticleAuthoring.MergeIdempotent | src/main/java/org/duckdns/bidbuy/app/article/service/ArticleService.java:89-105 | repeating an update at the same time changes nothing more |
| ArticleAuthoring.ImageUrlsOf | src/main/java/org/duckdns/bidbuy/app/article/service/ArticleService.java:110 | the URLs listed for an article are exactly those of its image records, no more of them than there are records |
| ArticleAuthoring.WithoutArticle | src/main/java/org/duckdns/bidbuy/app/article/service/ArticleService.java:146 | after deleting an article's image records, exactly the records of the other articles remain |
| ArticleAuthoring.WithoutArticleKeepsOthers | src/main/java/org/duckdns/bidbuy/app/article/service/ArticleService.java:142-146 | deleting one article's records leaves every other article's ordered URL list unchanged |
| ArticleAuthoring.ImageUploadService.UploadImages | src/main/java/org/duckdns/bidbuy/app/article/service/ArticleService.java:61 | one new, distinct URL per file, in file order, each storing its file; the stored URLs grow by exactly these and the existing blobs are kept |
| ArticleAuthoring.ImageUploadService.DeleteImage | src/main/java/org/duckdns/bidbuy/app/article/service/ArticleService.java:112 | exactly that blob is removed |
| ArticleAuthoring.ArticleService.SaveImage | src/main/java/org/duckdns/bidbuy/app/article/service/ArticleService.java:64-70 | one record for the URL is appended under the next id; that article's URL list gains the URL at its end and no other list changes |
| ArticleAuthoring.ArticleService.SaveImages | src/main/java/org/duckdns/bidbuy/app/article/service/ArticleService.java:62-71 | the loop appends one record per URL: the article's URL list gains exactly the URLs in order, older records stay as a prefix, other articles' lists and the article table are unchanged, and the invariant holds |
| ArticleAuthoring.ArticleService.CreateArticle | src/main/java/org/duckdns/bidbuy/app/article/service/ArticleService.java:36-74 | an anonymous caller or a missing writer fails with no change; otherwise the new article is stored under a fresh id, its URL list holds one new blob per file in upload order, and the other articles, their images and the existing blobs are kept |
| ArticleAuthoring.ArticleService.DeleteBlobs | src/main/java/org/duckdns/bidbuy/app/article/service/ArticleService.java:111-113 | the loop deletes exactly the blobs of the listed URLs |
| ArticleAuthoring.ArticleService.RemoveArticleImages | src/main/java/org/duckdns/bidbuy/app/article/service/ArticleService.java:142-146 | the article's blobs and image records are gone, the other records are kept and still consistent |
| ArticleAuthoring.ArticleService.ReplaceImages | src/main/java/org/duckdns/bidbuy/app/article/service/ArticleService.java:109-127 | the article's old blobs are deleted and its URL list becomes exactly one new blob per file, in order; every other blob and every other article's list is kept |
| ArticleAuthoring.ArticleService.UpdateArticle | src/main/java/org/duckdns/bidbuy/app/article/service/ArticleService.java:78-130 | an anonymous caller, a missing article or a non-writer fails, in that order, with no change; otherwise the merged article replaces the old one, images and blobs are untouched when the files are null or empty, and replaced as above when there are any |
| ArticleAuthoring.ArticleService.DeleteArticle | src/main/java/org/duckdns/bidbuy/app/article/service/ArticleService.java:133-148 | a missing article fails before the caller is looked at, then an anonymous caller or a non-writer fails, all with no change; otherwise the article, its records and its blobs are removed and everything else is kept |
| RefreshRotation.Stored | src/main/java/org/duckdns/bidbuy/global/auth/controller/RefreshTokenController.java:77 | `existsByRefreshToken`: some row holds the token; it has no contract of its own, and its meaning in use is stated by `RefreshRotation.RemoveToken` (a removed token is no longer stored) and `RefreshRotation.Validate` (the store check) |
| RefreshRotation.RemoveToken | src/main/java/org/duckdns/bidbuy/global/auth/controller/RefreshTokenController.java:93 | exactly the rows holding the token are deleted, and the token is no longer stored |
| RefreshRotation.PresentedToken | src/main/java/org/duckdns/bidbuy/global/auth/controller/RefreshTokenController.java:41-43 | a null cookie array presents no token, otherwise the token is that of the cookie loop; it has no contract of its own, and `RefreshRotation.LastRefresh` and `RefreshRotation.LastRefreshIsLast` state what the loop finds |
| RefreshRotation.LastRefresh | src/main/java/org/duckdns/bidbuy/global/auth/controller/RefreshTokenController.java:41-50 | no token exactly when no cookie is named `refresh` |
| RefreshRotation.LastRefreshIsLast | src/main/java/org/duckdns/bidbuy/global/auth/controller/RefreshTokenController.java:44-49 | a token found is the value of a `refresh` cookie after which no other `refresh` cookie follows, so a later cookie overrides an earlier one |
| RefreshRotation.Validate | src/main/java/org/duckdns/bidbuy/global/auth/controller/RefreshTokenController.java:52-82 | each rejection holds if and only if its check is the first to fail, in the order missing, unverifiable, expired, category other than `refresh`, not stored; acceptance returns the presented token's claims and implies it is stored |
| RefreshRotation.Rotate | src/main/java/org/duckdns/bidbuy/global/auth/controller/RefreshTokenController.java:38-103 | the tokens are reissued exactly when validation accepts; every rejection leaves the store unchanged; an unverifiable token is a server error and every other rejection a 400 with its message |
| RefreshRotation.RotationReissues | src/main/java/org/duckdns/bidbuy/global/auth/controller/RefreshTokenController.java:84-99 | the access token (category `access`, valid 3600000 ms) and the refresh token (category `refresh`, valid 86400000 ms) copy user id, username and role; the header is "Bearer " plus the access token; the cookie `refresh` has Max-Age 86400, path "/" and HttpOnly; the store gains a row for the new token with the same user and keeps every other token's state |
| RefreshRotation.RotationRetiresPresented | src/main/java/org/duckdns/bidbuy/global/auth/controller/RefreshTokenController.java:93-94 | after rotation the presented token is no longer stored, provided it was not minted at the same instant |
| RefreshRotation.ReplayRejected | src/main/java/org/duckdns/bidbuy/global/auth/controller/RefreshTokenController.java:77-82 | presenting the old token again after a rotation is always a 400 with the store unchanged, and while that token is unexpired the refusal comes from the store check |
| RefreshRotation.RotatedTokenAccepted | src/main/java/org/duckdns/bidbuy/global/auth/controller/RefreshTokenController.java:90-94 | the new refresh token is accepted by the next rotation at any time up to its expiration |
| RefreshRotation.RefreshTokenRepository.DeleteByRefreshToken | src/main/java/org/duckdns/bidbuy/global/auth/controller/RefreshTokenController.java:93 | the repository's rows become those without the token |
| RefreshRotation.RefreshTokenRepository.Save | src/main/java/org/duckdns/bidbuy/global/auth/controller/RefreshTokenController.java:116 | the row is appended |
| RefreshRotation.RefreshTokenController.ExtractRefreshToken | src/main/java/org/duckdns/bidbuy/global/auth/controller/RefreshTokenController.java:41-50 | the cookie loop yields the last `refresh` cookie's value, or none when there is none or the cookie array is null |
| RefreshRotation.RefreshTokenController.AddRefreshEntity | src/main/java/org/duckdns/bidbuy/global/auth/controller/RefreshTokenController.java:105-117 | one row for the user, username and token is appended, expiring `expiredMs` after now |
| RefreshRotation.RefreshTokenController.CreateCookie | src/main/java/org/duckdns/bidbuy/global/auth/controller/RefreshTokenController.java:119-128 | the cookie carries the key and value, Max-Age equal to the int-narrowed lifetime divided by 1000 with truncation, path "/", HttpOnly, and is not Secure |
| RefreshRotation.RefreshTokenController.RefreshToken | src/main/java/org/duckdns/bidbuy/global/auth/controller/RefreshTokenController.java:38-103 | the imperative endpoint returns the response and leaves the store that `Rotate` specifies for the token its cookies present |

## Left out

- The JWT utility (`JWTUtil`: HMAC signing, parsing, the expiry and claim getters) is not part of this model.
  - A token is its claims. A token the parser cannot verify is a distinct value whose exception escapes as a server error.
  - Expiry is `expiration < now`.
  - A real token stores its times in whole seconds. Two tokens minted for the same user in the same second could therefore coincide. The model keeps milliseconds, and the replay lemmas assume the presented token was issued at another instant.
- `ImageUploadService` and object storage are not part of this model. Upload is modelled as storing each file under a fresh key, and delete as removing the key. URLs are modelled as those keys.
- The JPA repository queries and pagination of the listing endpoints are not modelled. Only the choice of query order and of the viewer-aware query family is.
- The profile and count endpoints (`getMyProfile`, `getUserProfile`) are DTO assembly plus count queries and are not modelled.
- A null `sorting` value makes the Java `switch` throw; the model's sort parameter is never null.
- The clock: `LocalDateTime.now()` and `System.currentTimeMillis()` become a `now` parameter.
- The `Date.toString()` text of the refresh row's expiration is not modelled. The model keeps the expiration instant as a number.
- The cookie domain "localhost" is not modelled.
- Logging is not modelled.
- Transactions, rollback and concurrent requests are left out. Each operation is one sequential request. Every failure the model does report is raised before the operation writes anything, so it changes nothing.
- ArticleAuthoring.ArticleService.CreateArticle: a failing upload (`IOException` from `uploadImages`) is not modelled, and neither is the partial effect it leaves in the source. There the article is already saved when the upload fails, and a checked exception does not roll the transaction back, so the article stays with no images. In the model the upload always succeeds.
- ArticleAuthoring.ArticleService.UpdateArticle: a failing upload or blob delete is not modelled, and neither is the partial effect it leaves in the source. There the merged article is already saved and the old blobs and records are already deleted when the upload fails, so the article keeps no images. In the model upload and delete always succeed.
- ArticleAuthoring.ArticleService.DeleteArticle: a failing blob delete is not modelled. `ImageUploadService` is not part of this model, so whether `deleteImage` can fail is not known here. If it fails partway, the blobs already deleted stay deleted while the records and the article remain. In the model delete always succeeds.
- `likeCount` is an unbounded integer, so the model does not capture a `long` overflow of the counter. `Article.minusLikeCount`/`plusLikeCount` are not part of this model and are taken to be a plain decrement and increment.
- `createArticle` with a null image array is modelled as an empty file list. What the upload service does with null is not part of this model.
- The principal that is neither user details nor the anonymous string is not modelled.
- The messages of the like toggle's exceptions are not modelled. The model keeps which failure occurred, as a `LikeError`.
- The `User` entity and `OfferRepository` hold no logic that the modelled operations use. The offer-selection and review rules do not appear in the modelled code and are not modelled.

=== FILE: article_authoring.dfy ===
/**
 * Article authoring: create, update and delete of an article together
 * with its image records and the image blobs in object storage.
 */
module ArticleAuthoring {
  import opened Domain

  /** An object-storage URL, identified by the object key it was stored under. */
  datatype Url = Url(key: nat)

  /** One uploaded multipart file. */
  datatype ImageFile = ImageFile(name: string, bytes: seq<int>)

  /** An image record: the URL of one blob and the article it illustrates. */
  datatype ProductImage = ProductImage(id: int, imageUrl: Url, articleId: ArticleId, createdDate: int, modifiedDate: int)

  /** The descriptive fields of a create or update request; null means "not supplied". */
  datatype ArticleRequest = ArticleRequest(
    title: Option<string>,
    content: Option<string>,
    price: Option<int>,
    quantity: Option<int>,
    addr1: Option<string>,
    addr2: Option<string>,
    category: Option<string>,
    tradeMethod: Option<string>,
    tradeStatus: Option<TradeStatus>)

  /** The exceptions of the article service. */
  datatype ArticleError =
    | AnonymousCaller                  // the cast of the anonymous principal to user details fails
    | WriterNotFound                   // IllegalArgumentException: the caller's user row is missing
    | ArticleNotExist(id: ArticleId)
    | ArticleNoPermit(userId: UserId)

  /** A request that supplies no field. */
  const NoChanges: ArticleRequest := ArticleRequest(None, None, None, None, None, None, None, None, None)

  /** The descriptive fields of an article, as the request that would set them. */
  function Descriptive(a: Article): ArticleRequest {
    ArticleRequest(a.title, a.content, a.price, a.quantity, a.addr1, a.addr2, a.category, a.tradeMethod, a.tradeStatus)
  }

  function Pick<T>(value: Option<T>, fallback: Option<T>): Option<T> {
    if value.Some? then value else fallback
  }

  /** Field by field: the value of `top` where it supplies one, else the value of `base`. */
  function Overlay(top: ArticleRequest, base: ArticleRequest): ArticleRequest {
    ArticleRequest(
      Pick(top.title, base.title), Pick(top.content, base.content),
      Pick(top.price, base.price), Pick(top.quantity, base.quantity),
      Pick(top.addr1, base.addr1), Pick(top.addr2, base.addr2),
      Pick(top.category, base.category), Pick(top.tradeMethod, base.tradeMethod),
      Pick(top.tradeStatus, base.tradeStatus))
  }

  /**
   * The article `createArticle` builds: the request's descriptive fields
   * (trade status included, nulls included), the caller as writer, both
   * counters at zero, both timestamps at `now`.
   */
  function NewArticle(req: ArticleRequest, writerId: UserId, id: ArticleId, now: int): (a: Article)
    ensures Descriptive(a) == req
    ensures a.id == id && a.writerId == writerId
    ensures a.viewCount == 0 && a.likeCount == 0
    ensures a.createdDate == now && a.modifiedDate == now
  {
    Article(id, writerId, req.title, req.content, req.price, req.quantity, req.addr1, req.addr2,
            req.category, req.tradeMethod, req.tradeStatus, 0, 0, now, now)
  }

  /**
   * The article `updateArticle` saves: every supplied field wins, every
   * null keeps the old value; identity, writer, counters and creation
   * date are kept and the modification date becomes `now`.
   */
  function Merge(current: Article, req: ArticleRequest, now: int): (a: Article)
    ensures Descriptive(a) == Overlay(req, Descriptive(current))
    ensures a.id == current.id && a.writerId == current.writerId
    ensures a.viewCount == current.viewCount && a.likeCount == current.likeCount
    ensures a.createdDate == current.createdDate && a.modifiedDate == now
  {
    Article(
      current.id, current.writerId,
      Pick(req.title, current.title), Pick(req.content, current.content),
      Pick(req.price, current.price), Pick(req.quantity, current.quantity),
      Pick(req.addr1, current.addr1), Pick(req.addr2, current.addr2),
      Pick(req.category, current.category), Pick(req.tradeMethod, current.tradeMethod),
      Pick(req.tradeStatus, current.tradeStatus),
      current.viewCount, current.likeCount, current.createdDate, now)
  }

  /** An update that supplies nothing changes nothing but the modification date. */
  lemma MergeNoChanges(current: Article, now: int)
    ensures Merge(current, NoChanges, now) == current.(modifiedDate := now)
  {
  }

  /** Two updates in a row equal one update with the later request laid over the earlier one. */
  lemma MergeTwice(current: Article, first: ArticleRequest, second: ArticleRequest, t1: int, t2: int)
    ensures Merge(Merge(current, first, t1), second, t2) == Merge(current, Overlay(second, first), t2)
  {
  }

  /** Repeating an update at the same time is idempotent. */
  lemma MergeIdempotent(current: Article, req: ArticleRequest, now: int)
    ensures Merge(Merge(current, req, now), req, now) == Merge(current, req, now)
  {
  }

  // ---------------------------------------------------------------
  // Image records
  // ---------------------------------------------------------------

  /** `findByArticle`: the URLs of an article's image records, in record order. */
  function ImageUrlsOf(images: seq<ProductImage>, articleId: ArticleId): (urls: seq<Url>)
    ensures |urls| <= |images|
    ensures forall u :: u in urls <==> exists x :: x in images && x.articleId == articleId && x.imageUrl == u
  {
    if images == [] then []
    else
      var rest := ImageUrlsOf(images[..|images| - 1], articleId);
      var x := images[|images| - 1];
      assert forall y :: y in images <==> y in images[..|images| - 1] || y == x;
      if x.articleId == articleId then rest + [x.imageUrl] else rest
  }

  /** `deleteByArticle` / `deleteAll(findByArticle(..))`: the image records of every other article. */
  function WithoutArticle(images: seq<ProductImage>, articleId: ArticleId): (r: seq<ProductImage>)
    ensures forall x :: x in r <==> x in images && x.articleId != articleId
  {
    if images == [] then []
    else
      var rest := WithoutArticle(images[..|images| - 1], articleId);
      var x := images[|images| - 1];
      assert forall y :: y in images <==> y in images[..|images| - 1] || y == x;
      if x.articleId == articleId then rest else rest + [x]
  }

  /** The URLs of a list, as a set. */
  function UrlSet(urls: seq<Url>): (r: set<Url>)
    ensures forall u :: u in r <==> u in urls
  {
    set u | u in urls
  }

  lemma ImageUrlsOfSnoc(images: seq<ProductImage>, x: ProductImage, articleId: ArticleId)
    ensures ImageUrlsOf(images + [x], articleId)
      == ImageUrlsOf(images, articleId) + (if x.articleId == articleId then [x.imageUrl] else [])
  {
    assert (images + [x])[..|images|] == images;
  }

  lemma ImageUrlsOfNone(images: seq<ProductImage>, articleId: ArticleId)
    requires forall x :: x in images ==> x.articleId != articleId
    ensures ImageUrlsOf(images, articleId) == []
  {
  }

  /** Removing one article's records leaves the record list of every other article as it was. */
  lemma {:induction false} WithoutArticleKeepsOthers(images: seq<ProductImage>, removed: ArticleId, other: ArticleId)
    requires removed != other
    ensures ImageUrlsOf(WithoutArticle(images, removed), other) == ImageUrlsOf(images, other)
    decreases |images|
  {
    if images != [] {
      var init := images[..|images| - 1];
      var x := images[|images| - 1];
      assert images == init + [x];
      WithoutArticleKeepsOthers(init, removed, other);
      ImageUrlsOfSnoc(init, x, other);
      if x.articleId != removed {
        ImageUrlsOfSnoc(WithoutArticle(init, removed), x, other);
      }
    }
  }

  // ---------------------------------------------------------------
  // Object storage
  // ---------------------------------------------------------------

  /** The image upload service over object storage: the stored blobs, by URL. */
  class ImageUploadService {
    var blobs: map<Url, ImageFile>
    var nextKey: nat

    ghost predicate Valid()
      reads this
    {
      forall u :: u in blobs ==> u.key < nextKey
    }

    constructor ()
      ensures Valid() && blobs == map[]
    {
      blobs := map[];
      nextKey := 0;
    }

    /** `uploadImages`: stores each file under a new URL and returns the URLs in file order. */
    method UploadImages(files: seq<ImageFile>) returns (urls: seq<Url>)
      requires Valid()
      modifies this
      ensures Valid()
      ensures |urls| == |files|
      ensures forall i :: 0 <= i < |urls| ==> urls[i] !in old(blobs) && urls[i] in blobs && blobs[urls[i]] == files[i]
      ensures forall i, j :: 0 <= i < j < |urls| ==> urls[i] != urls[j]
      ensures forall i :: 0 <= i < |urls| ==> old(nextKey) <= urls[i].key
      ensures old(nextKey) <= nextKey
      ensures blobs.Keys == old(blobs).Keys + UrlSet(urls)
      ensures forall u :: u in old(blobs) ==> u in blobs && blobs[u] == old(blobs)[u]
    {
      urls := [];
      for i := 0 to |files|
        invariant Valid() && old(nextKey) <= nextKey
        invariant |urls| == i
        invariant forall k :: 0 <= k < i ==> old(nextKey) <= urls[k].key < nextKey
        invariant forall k :: 0 <= k < i ==> urls[k] in blobs && blobs[urls[k]] == files[k]
        invariant forall k, j :: 0 <= k < j < i ==> urls[k].key < urls[j].key
        invariant blobs.Keys == old(blobs).Keys + UrlSet(urls)
        invariant forall u :: u in old(blobs) ==> u in blobs && blobs[u] == old(blobs)[u]
      {
        var url := Url(nextKey);
        nextKey := nextKey + 1;
        blobs := blobs[url := files[i]];
        urls := urls + [url];
      }
    }

    /** `deleteImage`: removes one blob. */
    method DeleteImage(url: Url)
      requires Valid()
      modifies this
      ensures Valid() && nextKey == old(nextKey)
      ensures blobs == old(blobs) - {url}
    {
      blobs := blobs - {url};
    }
  }

  // ---------------------------------------------------------------
  // The article service
  // ---------------------------------------------------------------

  /** The article service, holding the user, article and image repositories and the upload service. */
  class ArticleService {
    var users: set<UserId>
    var articles: map<ArticleId, Article>
    var images: seq<ProductImage>
    var nextArticleId: int
    var nextImageId: int
    const uploader: ImageUploadService

    /**
     * Rows are keyed by their ids, ids are issued in increasing order,
     * every image record belongs to an existing article and points at a
     * stored blob, and no blob is shared by two articles.
     */
    ghost predicate Valid()
      reads this, uploader
    {
      && uploader.Valid()
      && (forall id :: id in articles ==> articles[id].id == id && id < nextArticleId)
      && (forall x :: x in images ==> x.articleId in articles && x.imageUrl in uploader.blobs)
      && (forall x, y :: x in images && y in images && x.imageUrl == y.imageUrl ==> x.articleId == y.articleId)
    }

    constructor (users: set<UserId>, uploader: ImageUploadService)
      requires uploader.Valid()
      ensures Valid()
      ensures this.users == users && articles == map[] && images == [] && this.uploader == uploader
    {
      this.users := users;
      this.articles := map[];
      this.images := [];
      this.nextArticleId := 1;
      this.nextImageId := 1;
      this.uploader := uploader;
    }

    /** `productImageRepository.save`: appends one image record under the next id. */
    method SaveImage(articleId: ArticleId, url: Url, now: int)
      requires Valid() && articleId in articles && url in uploader.blobs
      requires forall x :: x in images && x.imageUrl == url ==> x.articleId == articleId
      modifies this
      ensures Valid()
      ensures articles == old(articles) && users == old(users) && nextArticleId == old(nextArticleId)
      ensures images == old(images) + [ProductImage(old(nextImageId), url, articleId, now, now)]
      ensures forall b :: ImageUrlsOf(images, b) == ImageUrlsOf(old(images), b) + (if b == articleId then [url] else [])
    {
      var record := ProductImage(nextImageId, url, articleId, now, now);
      forall b
        ensures ImageUrlsOf(images + [record], b) == ImageUrlsOf(images, b) + (if b == articleId then [url] else [])
      {
        ImageUrlsOfSnoc(images, record, b);
      }
      images := images + [record];
      nextImageId := nextImageId + 1;
    }

    /** The loop that saves one image record per URL, in order, for one article. */
    method SaveImages(articleId: ArticleId, urls: seq<Url>, now: int)
      requires Valid() && articleId in articles
      requires forall u :: u in urls ==> u in uploader.blobs
      requires forall x, u :: x in images && u in urls ==> x.imageUrl != u
      modifies this
      ensures Valid()
      ensures articles == old(articles) && users == old(users) && nextArticleId == old(nextArticleId)
      ensures |images| == |old(images)| + |urls| && images[..|old(images)|] == old(images)
      ensures ImageUrlsOf(images, articleId) == ImageUrlsOf(old(images), articleId) + urls
      ensures forall b :: b != articleId ==> ImageUrlsOf(images, b) == ImageUrlsOf(old(images), b)
    {
      ghost var before := images;
      for i := 0 to |urls|
        invariant Valid()
        invariant articles == old(articles) && users == old(users) && nextArticleId == old(nextArticleId)
        invariant |images| == |before| + i && images[..|before|] == before
        invariant forall x :: x in images ==> x in before || x.articleId == articleId
        invariant ImageUrlsOf(images, articleId) == ImageUrlsOf(before, articleId) + urls[..i]
        invariant forall b :: b != articleId ==> ImageUrlsOf(images, b) == ImageUrlsOf(before, b)
      {
        assert urls[i] in urls;
        SaveImage(articleId, urls[i], now);
        assert urls[..i + 1] == urls[..i] + [urls[i]];
      }
      assert urls[..|urls|] == urls;
    }

    /** `createArticle`: saves the new article, uploads the files and saves one image record per URL. */
    method CreateArticle(principal: Principal, req: ArticleRequest, files: seq<ImageFile>, now: int)
      returns (r: Result<Article, ArticleError>)
      requires Valid()
      modifies this, uploader
      ensures Valid()
      ensures principal.Anonymous? ==> r == Err(AnonymousCaller)
      ensures principal.LoggedIn? && principal.userId !in old(users) ==> r == Err(WriterNotFound)
      ensures principal.LoggedIn? && principal.userId in old(users) ==> r.Ok?
      ensures r.Err? ==> unchanged(this) && unchanged(uploader)
      ensures r.Ok? ==>
        var a := r.value;
        && a == NewArticle(req, principal.userId, old(nextArticleId), now)
        && a.id !in old(articles)
        && articles == old(articles)[a.id := a]
        && users == old(users)
        && |images| == |old(images)| + |files| && images[..|old(images)|] == old(images)
        && (forall b :: b != a.id ==> ImageUrlsOf(images, b) == ImageUrlsOf(old(images), b))
      ensures r.Ok? ==>
        var urls := ImageUrlsOf(images, r.value.id);
        && |urls| == |files|
        && (forall i :: 0 <= i < |urls| ==>
              urls[i] !in old(uploader.blobs) && urls[i] in uploader.blobs && uploader.blobs[urls[i]] == files[i])
        && uploader.blobs.Keys == old(uploader.blobs).Keys + UrlSet(urls)
        && (forall u :: u in old(uploader.blobs) ==> u in uploader.blobs && uploader.blobs[u] == old(uploader.blobs)[u])
    {
      if principal.Anonymous? {
        return Err(AnonymousCaller);
      }
      var userId := principal.userId;
      if userId !in users {
        return Err(WriterNotFound);
      }
      var article := NewArticle(req, userId, nextArticleId, now);
      ImageUrlsOfNone(images, article.id);
      articles := articles[article.id := article];
      nextArticleId := nextArticleId + 1;
      var urls := uploader.UploadImages(files);
      SaveImages(article.id, urls, now);
      assert ImageUrlsOf(images, article.id) == urls;
      r := Ok(article);
    }

    /** The loop that deletes the blob of each URL. */
    method DeleteBlobs(urls: seq<Url>)
      requires uploader.Valid()
      modifies uploader
      ensures uploader.Valid() && uploader.nextKey == old(uploader.nextKey)
      ensures uploader.blobs == old(uploader.blobs) - UrlSet(urls)
    {
      for i := 0 to |urls|
        invariant uploader.Valid() && uploader.nextKey == old(uploader.nextKey)
        invariant uploader.blobs == old(uploader.blobs) - UrlSet(urls[..i])
      {
        uploader.DeleteImage(urls[i]);
        assert urls[..i + 1] == urls[..i] + [urls[i]];
        assert UrlSet(urls[..i + 1]) == UrlSet(urls[..i]) + {urls[i]};
      }
      assert urls[..|urls|] == urls;
    }

    /**
     * Drops an article's blobs and image records; what remains is still
     * consistent whether the article row is then kept or removed.
     */
    method RemoveArticleImages(id: ArticleId)
      requires Valid()
      modifies this, uploader
      ensures uploader.Valid() && uploader.nextKey == old(uploader.nextKey)
      ensures articles == old(articles) && users == old(users) && nextArticleId == old(nextArticleId)
      ensures images == WithoutArticle(old(images), id)
      ensures uploader.blobs == old(uploader.blobs) - UrlSet(ImageUrlsOf(old(images), id))
      ensures forall x :: x in images ==> x.articleId in articles && x.articleId != id && x.imageUrl in uploader.blobs
      ensures forall x, y :: x in images && y in images && x.imageUrl == y.imageUrl ==> x.articleId == y.articleId
    {
      var existing := ImageUrlsOf(images, id);
      DeleteBlobs(existing);
      images := WithoutArticle(images, id);
    }

    /**
     * The image half of `updateArticle`: deletes every blob and record of
     * the article, uploads the files and saves one record per new URL.
     */
    method ReplaceImages(id: ArticleId, files: seq<ImageFile>, now: int)
      requires Valid() && id in articles
      modifies this, uploader
      ensures Valid()
      ensures articles == old(articles) && users == old(users) && nextArticleId == old(nextArticleId)
      ensures forall b :: b != id ==> ImageUrlsOf(images, b) == ImageUrlsOf(old(images), b)
      ensures var gone, urls := ImageUrlsOf(old(images), id), ImageUrlsOf(images, id);
        && |urls| == |files|
        && (forall i :: 0 <= i < |urls| ==>
              urls[i] !in old(uploader.blobs) && urls[i] in uploader.blobs && uploader.blobs[urls[i]] == files[i])
        && uploader.blobs.Keys == (old(uploader.blobs).Keys - UrlSet(gone)) + UrlSet(urls)
        && (forall u :: u in old(uploader.blobs) && u !in gone ==> u in uploader.blobs && uploader.blobs[u] == old(uploader.blobs)[u])
    {
      ghost var oldImages := images;
      RemoveArticleImages(id);
      var urls := uploader.UploadImages(files);
      ImageUrlsOfNone(images, id);
      forall b | b != id
        ensures ImageUrlsOf(images, b) == ImageUrlsOf(oldImages, b)
      {
        WithoutArticleKeepsOthers(oldImages, id, b);
      }
      SaveImages(id, urls, now);
      assert ImageUrlsOf(images, id) == urls;
    }

    /**
     * `updateArticle`: merges the request over the article, and only when
     * a non-empty file array is supplied replaces the article's images.
     */
    method UpdateArticle(principal: Principal, id: ArticleId, req: ArticleRequest, files: Option<seq<ImageFile>>, now: int)
      returns (r: Result<Article, ArticleError>)
      requires Valid()
      modifies this, uploader
      ensures Valid()
      ensures principal.Anonymous? ==> r == Err(AnonymousCaller)
      ensures principal.LoggedIn? && id !in old(articles) ==> r == Err(ArticleNotExist(id))
      ensures principal.LoggedIn? && id in old(articles) && old(articles)[id].writerId != principal.userId ==>
        r == Err(ArticleNoPermit(principal.userId))
      ensures principal.LoggedIn? && id in old(articles) && old(articles)[id].writerId == principal.userId ==> r.Ok?
      ensures r.Err? ==> unchanged(this) && unchanged(uploader)
      ensures r.Ok? ==>
        && r.value == Merge(old(articles)[id], req, now)
        && articles == old(articles)[id := r.value]
        && users == old(users)
        && (forall b :: b != id ==> ImageUrlsOf(images, b) == ImageUrlsOf(old(images), b))
      ensures r.Ok? && (files.None? || |files.value| == 0) ==>
        images == old(images) && uploader.blobs == old(uploader.blobs)
      ensures r.Ok? && files.Some? && |files.value| > 0 ==>
        var gone, urls := ImageUrlsOf(old(images), id), ImageUrlsOf(images, id);
        && |urls| == |files.value|
        && (forall i :: 0 <= i < |urls| ==>
              urls[i] !in old(uploader.blobs) && urls[i] in uploader.blobs && uploader.blobs[urls[i]] == files.value[i])
        && uploader.blobs.Keys == (old(uploader.blobs).Keys - UrlSet(gone)) + UrlSet(urls)
        && (forall u :: u in old(uploader.blobs) && u !in gone ==> u in uploader.blobs && uploader.blobs[u] == old(uploader.blobs)[u])
    {
      if principal.Anonymous? {
        return Err(AnonymousCaller);
      }
      var userId := principal.userId;
      if id !in articles {
        return Err(ArticleNotExist(id));
      }
      var article := articles[id];
      if article.writerId != userId {
        return Err(ArticleNoPermit(userId));
      }
      var updated := Merge(article, req, now);
      articles := articles[id := updated];
      if files.Some? && |files.value| > 0 {
        ReplaceImages(id, files.value, now);
      }
      r := Ok(updated);
    }

    /** `deleteArticle`: deletes the article's blobs, then its image records, then the article. */
    method DeleteArticle(principal: Principal, id: ArticleId) returns (r: Result<(), ArticleError>)
      requires Valid()
      modifies this, uploader
      ensures Valid()
      ensures id !in old(articles) ==> r == Err(ArticleNotExist(id))
      ensures id in old(articles) && principal.Anonymous? ==> r == Err(AnonymousCaller)
      ensures id in old(articles) && principal.LoggedIn? && old(articles)[id].writerId != principal.userId ==>
        r == Err(ArticleNoPermit(principal.userId))
      ensures id in old(articles) && principal.LoggedIn? && old(articles)[id].writerId == principal.userId ==> r.Ok?
      ensures r.Err? ==> unchanged(this) && unchanged(uploader)
      ensures r.Ok? ==>
        && articles == old(articles) - {id}
        && users == old(users)
        && images == WithoutArticle(old(images), id)
        && ImageUrlsOf(images, id) == []
        && (forall b :: b != id ==> ImageUrlsOf(images, b) == ImageUrlsOf(old(images), b))
        && uploader.blobs == old(uploader.blobs) - UrlSet(ImageUrlsOf(old(images), id))
    {
      if id !in articles {
        return Err(ArticleNotExist(id));
      }
      if principal.Anonymous? {
        return Err(AnonymousCaller);
      }
      var userId := principal.userId;
      if articles[id].writerId != userId {
        return Err(ArticleNoPermit(userId));
      }
      ghost var oldImages := images;
      RemoveArticleImages(id);
      articles := articles - {id};
      ImageUrlsOfNone(images, id);
      forall b | b != id
        ensures ImageUrlsOf(images, b) == ImageUrlsOf(oldImages, b)
      {
        WithoutArticleKeepsOthers(oldImages, id, b);
      }
      r := Ok(());
    }
  }
}

=== FILE: domain.dfy ===
/**
 * Shared vocabulary of the marketplace back-end: the optional and
 * result wrappers that stand in for Java's null and exceptions, the
 * identifiers, the article entity, the caller principal, and the two
 * pieces of Java integer arithmetic the services rely on.
 */
module Domain {

  /** A Java reference that may be null. */
  datatype Option<+T> = None | Some(value: T)

  /** The value an operation returns, or the exception it throws. */
  datatype Result<+T, +E> = Ok(value: T) | Err(error: E)

  /** Database identity columns (Java Long ids). */
  type UserId = int
  type ArticleId = int

  datatype TradeStatus = Sale | Reserved | Complete

  /**
   * The principal found in the security context: the details of a
   * logged-in user, or the anonymous-user string.
   */
  datatype Principal = Anonymous | LoggedIn(userId: UserId)

  /**
   * An article row. The descriptive fields are copied from requests
   * that may carry nulls, so each of them may be null here as well.
   * Timestamps are whole seconds.
   */
  datatype Article = Article(
    id: ArticleId,
    writerId: UserId,
    title: Option<string>,
    content: Option<string>,
    price: Option<int>,
    quantity: Option<int>,
    addr1: Option<string>,
    addr2: Option<string>,
    category: Option<string>,
    tradeMethod: Option<string>,
    tradeStatus: Option<TradeStatus>,
    viewCount: int,
    likeCount: int,
    createdDate: int,
    modifiedDate: int)

  const TwoTo31: int := 0x8000_0000
  const TwoTo32: int := 0x1_0000_0000

  /** Java's narrowing conversion of a long to an int (`(int) x`, `x.intValue()`). */
  function ToInt32(x: int): (r: int)
    ensures -TwoTo31 <= r < TwoTo31
    ensures (r - x) % TwoTo32 == 0
    ensures -TwoTo31 <= x < TwoTo31 ==> r == x
  {
    (x + TwoTo31) % TwoTo32 - TwoTo31
  }

  /** Java's integer division, which truncates toward zero. */
  function JavaDiv(a: int, b: int): (q: int)
    requires b > 0
    ensures a >= 0 ==> 0 <= a - q * b < b
    ensures a < 0 ==> -b < a - q * b <= 0
  {
    if a >= 0 then a / b else -((-a) / b)
  }
}

=== FILE: java_text.dfy ===
/**
 * The decimal text Java produces when a number is concatenated to a
 * string (`Long.toString`), together with the parser that reads it back,
 * so that the rendering can be shown to lose no information.
 */
module JavaText {
  import opened Domain

  predicate IsDigit(c: char) {
    '0' <= c <= '9'
  }

  predicate AllDigits(s: string) {
    forall i :: 0 <= i < |s| ==> IsDigit(s[i])
  }

  function DigitChar(d: int): (c: char)
    requires 0 <= d < 10
    ensures IsDigit(c) && DigitValue(c) == d
  {
    ('0' as int + d) as char
  }

  function DigitValue(c: char): int
    requires IsDigit(c)
  {
    c as int - '0' as int
  }

  /** The decimal digits of a non-negative number, most significant first, with no leading zero. */
  function NatToString(n: nat): (s: string)
    ensures |s| >= 1 && AllDigits(s)
    ensures s[0] == '0' <==> n == 0
    decreases n
  {
    if n < 10 then [DigitChar(n)] else NatToString(n / 10) + [DigitChar(n % 10)]
  }

  /** `Long.toString(n)`: a minus sign for negative values, then the digits of the magnitude. */
  function LongToString(n: int): (s: string)
    ensures |s| >= 1
    ensures s[0] == '-' <==> n < 0
    ensures AllDigits(if n < 0 then s[1..] else s)
    ensures n < 0 ==> |s| >= 2 && s[1] != '0'
    ensures n >= 0 ==> (s[0] == '0' <==> n == 0)
  {
    if n < 0 then "-" + NatToString(-n) else NatToString(n)
  }

  /** The value of a run of decimal digits. */
  function ParseDigits(s: string): nat
    requires AllDigits(s)
  {
    if s == [] then 0 else ParseDigits(s[..|s| - 1]) * 10 + DigitValue(s[|s| - 1])
  }

  /** Reads back an optionally signed decimal number; anything else is rejected. */
  function ParseLong(s: string): Option<int> {
    if |s| >= 2 && s[0] == '-' && AllDigits(s[1..]) then Some(0 - ParseDigits(s[1..]) as int)
    else if |s| >= 1 && AllDigits(s) then Some(ParseDigits(s))
    else None
  }

  lemma {:induction false} ParseNatToString(n: nat)
    ensures ParseDigits(NatToString(n)) == n
    decreases n
  {
    if n >= 10 {
      var s := NatToString(n);
      assert s[..|s| - 1] == NatToString(n / 10);
      ParseNatToString(n / 10);
    }
  }

  /** Rendering a long and parsing the text gives the long back. */
  lemma LongToStringRoundTrip(n: int)
    ensures ParseLong(LongToString(n)) == Some(n)
  {
    if n < 0 {
      var d := NatToString(-n);
      assert LongToString(n)[1..] == d;
      ParseNatToString(-n);
    } else {
      ParseNatToString(n);
    }
  }

  /** The number of leading digits of s. */
  function DigitRun(s: string): (k: nat)
    ensures k <= |s| && AllDigits(s[..k])
    ensures k < |s| ==> !IsDigit(s[k])
  {
    if s != [] && IsDigit(s[0]) then
      var k := 1 + DigitRun(s[1..]);
      assert s[..k] == [s[0]] + s[1..][..k - 1];
      k
    else 0
  }

  /** The length of the longest prefix of s that looks like a signed number. */
  function NumberPrefixLength(s: string): (k: nat)
    ensures k <= |s|
  {
    if s != [] && s[0] == '-' then 1 + DigitRun(s[1..]) else DigitRun(s)
  }

  lemma {:induction false} DigitRunOfDigits(d: string, t: string)
    requires AllDigits(d)
    requires t == [] || !IsDigit(t[0])
    ensures DigitRun(d + t) == |d|
    decreases |d|
  {
    if d != [] {
      assert (d + t)[1..] == d[1..] + t;
      DigitRunOfDigits(d[1..], t);
    } else {
      assert d + t == t;
    }
  }

  /** A rendered number followed by text that does not start with a digit splits back at the number's end. */
  lemma NumberPrefixOfLong(n: int, t: string)
    requires t == [] || !IsDigit(t[0])
    ensures NumberPrefixLength(LongToString(n) + t) == |LongToString(n)|
  {
    var d := NatToString(if n < 0 then -n else n);
    if n < 0 {
      assert (LongToString(n) + t)[0] == '-';
      assert (LongToString(n) + t)[1..] == d + t;
      DigitRunOfDigits(d, t);
    } else {
      DigitRunOfDigits(d, t);
    }
  }
}

=== FILE: like_registry.dfy ===
/**
 * The like toggle of the user service: a logged-in user likes or
 * un-likes someone else's article, and the article's denormalised
 * `likeCount` follows the like rows.
 */
module LikeRegistry {
  import opened Domain

  /** A like row: the pair (user, article) is its key. */
  datatype Like = Like(userId: UserId, articleId: ArticleId)

  datatype LikeOutcome = Removed | Added

  /** The exceptions `updateLikeArticles` throws. */
  datatype LikeError = NotLoggedIn | UserNotFound | ArticleNotFound | SelfLike

  /** The text `updateLikeArticles` answers with. */
  function OutcomeMessage(o: LikeOutcome): string {
    match o
    case Removed => "찜한 상품을 목록에서 제거했습니다."
    case Added => "상품을 찜목록에 등록했습니다."
  }

  /** The like rows of one article. */
  function LikesOf(likes: set<Like>, articleId: ArticleId): (r: set<Like>)
    ensures forall l :: l in r <==> l in likes && l.articleId == articleId
  {
    set l | l in likes && l.articleId == articleId
  }

  /** Every article's counter equals the number of its like rows. */
  predicate CountsAgree(articles: map<ArticleId, Article>, likes: set<Like>) {
    forall id :: id in articles ==> articles[id].likeCount == |LikesOf(likes, id)|
  }

  /** The three tables the toggle reads and writes. */
  datatype LikeTables = LikeTables(users: set<UserId>, articles: map<ArticleId, Article>, likes: set<Like>)

  /**
   * The whole effect of one `updateLikeArticles` call: the checks in
   * source order, then the toggle of the (user, article) row with the
   * matching counter step.
   */
  function Toggle(t: LikeTables, principal: Principal, articleId: ArticleId): (res: (Result<LikeOutcome, LikeError>, LikeTables))
    ensures res.0.Err? ==> res.1 == t
    ensures res.0 == Err(NotLoggedIn) <==> principal.Anonymous?
    ensures res.0 == Err(UserNotFound) <==> principal.LoggedIn? && principal.userId !in t.users
    ensures res.0 == Err(ArticleNotFound) <==>
      principal.LoggedIn? && principal.userId in t.users && articleId !in t.articles
    ensures res.0 == Err(SelfLike) <==>
      principal.LoggedIn? && principal.userId in t.users && articleId in t.articles
      && t.articles[articleId].writerId == principal.userId
    ensures res.0.Ok? ==> res.1.users == t.users && res.1.articles.Keys == t.articles.Keys
    ensures res.0 == Ok(Removed) <==> res.0.Ok? && Like(principal.userId, articleId) in t.likes
    ensures res.0.Ok? ==> (Like(principal.userId, articleId) in res.1.likes <==> res.0 == Ok(Added))
  {
    match principal
    case Anonymous => (Err(NotLoggedIn), t)
    case LoggedIn(userId) =>
      if userId !in t.users then (Err(UserNotFound), t)
      else if articleId !in t.articles then (Err(ArticleNotFound), t)
      else
        var article := t.articles[articleId];
        var key := Like(userId, articleId);
        if article.writerId == userId then (Err(SelfLike), t)
        else if key in t.likes then
          (Ok(Removed), t.(likes := t.likes - {key},
                           articles := t.articles[articleId := article.(likeCount := article.likeCount - 1)]))
        else
          (Ok(Added), t.(likes := t.likes + {key},
                         articles := t.articles[articleId := article.(likeCount := article.likeCount + 1)]))
  }

  /**
   * A successful toggle flips exactly the caller's row for that article,
   * moves that article's counter one step in the same direction, and
   * leaves every other row and article as it was.
   */
  lemma ToggleFlipsOneRow(t: LikeTables, principal: Principal, articleId: ArticleId)
    requires Toggle(t, principal, articleId).0.Ok?
    ensures var (r, t') := Toggle(t, principal, articleId);
      var key := Like(principal.userId, articleId);
      && (r == Ok(Removed) ==>
            t'.likes == t.likes - {key} && |t'.likes| == |t.likes| - 1
            && t'.articles[articleId].likeCount == t.articles[articleId].likeCount - 1)
      && (r == Ok(Added) ==>
            t'.likes == t.likes + {key} && |t'.likes| == |t.likes| + 1
            && t'.articles[articleId].likeCount == t.articles[articleId].likeCount + 1)
      && t'.articles[articleId] == t.articles[articleId].(likeCount := t'.articles[articleId].likeCount)
      && (forall id :: id in t.articles && id != articleId ==> t'.articles[id] == t.articles[id])
  {
  }

  lemma LikesOfInsert(likes: set<Like>, key: Like, id: ArticleId)
    requires key !in likes
    ensures LikesOf(likes + {key}, id) == if key.articleId == id then LikesOf(likes, id) + {key} else LikesOf(likes, id)
    ensures |LikesOf(likes + {key}, id)| == |LikesOf(likes, id)| + (if key.articleId == id then 1 else 0)
  {
    if key.articleId == id {
      assert LikesOf(likes + {key}, id) == LikesOf(likes, id) + {key};
    } else {
      assert LikesOf(likes + {key}, id) == LikesOf(likes, id);
    }
  }

  lemma LikesOfRemove(likes: set<Like>, key: Like, id: ArticleId)
    requires key in likes
    ensures LikesOf(likes - {key}, id) == if key.articleId == id then LikesOf(likes, id) - {key} else LikesOf(likes, id)
    ensures |LikesOf(likes - {key}, id)| == |LikesOf(likes, id)| - (if key.articleId == id then 1 else 0)
  {
    if key.articleId == id {
      assert LikesOf(likes - {key}, id) == LikesOf(likes, id) - {key};
    } else {
      assert LikesOf(likes - {key}, id) == LikesOf(likes, id);
    }
  }

  /**
   * The counter invariant survives every call: if each article's
   * `likeCount` matched its like rows before, it does after, and the
   * like rows of every other article are untouched.
   */
  lemma ToggleKeepsCountsAgree(t: LikeTables, principal: Principal, articleId: ArticleId)
    requires CountsAgree(t.articles, t.likes)
    ensures var t' := Toggle(t, principal, articleId).1;
      && CountsAgree(t'.articles, t'.likes)
      && (forall id :: id != articleId ==> LikesOf(t'.likes, id) == LikesOf(t.likes, id))
  {
    var (r, t') := Toggle(t, principal, articleId);
    if r.Ok? {
      var key := Like(principal.userId, articleId);
      forall id
        ensures id != articleId ==> LikesOf(t'.likes, id) == LikesOf(t.likes, id)
        ensures id in t'.articles ==> t'.articles[id].likeCount == |LikesOf(t'.likes, id)|
      {
        if key in t.likes {
          LikesOfRemove(t.likes, key, id);
        } else {
          LikesOfInsert(t.likes, key, id);
        }
      }
    }
  }

  /**
   * Toggling twice by the same user on the same article answers with the
   * opposite outcome and restores the like rows and the counter.
   */
  lemma ToggleTwiceRestores(t: LikeTables, principal: Principal, articleId: ArticleId)
    requires Toggle(t, principal, articleId).0.Ok?
    ensures var (r1, t1) := Toggle(t, principal, articleId);
      var (r2, t2) := Toggle(t1, principal, articleId);
      r2.Ok? && r2.value != r1.value && t2 == t
  {
    var (r1, t1) := Toggle(t, principal, articleId);
    var key := Like(principal.userId, articleId);
    var article := t.articles[articleId];
    if key in t.likes {
      assert t1.likes + {key} == t.likes;
    } else {
      assert t1.likes - {key} == t.likes;
    }
    assert t1.articles[articleId := article] == t.articles;
  }

  /** The user service holding the user, article and like repositories. */
  class UserService {
    var users: set<UserId>
    var articles: map<ArticleId, Article>
    var likes: set<Like>

    function Tables(): LikeTables
      reads this
    {
      LikeTables(users, articles, likes)
    }

    constructor (users: set<UserId>, articles: map<ArticleId, Article>, likes: set<Like>)
      ensures Tables() == LikeTables(users, articles, likes)
    {
      this.users := users;
      this.articles := articles;
      this.likes := likes;
    }

    /**
     * `updateLikeArticles`: toggles the caller's like on the article and
     * answers with the message of the outcome, or fails with the error.
     */
    method UpdateLikeArticles(principal: Principal, articleId: ArticleId) returns (r: Result<string, LikeError>)
      modifies this
      ensures var (res, t) := Toggle(old(Tables()), principal, articleId);
        && Tables() == t
        && (res.Ok? ==> r == Ok(OutcomeMessage(res.value)))
        && (res.Err? ==> r == Err(res.error))
    {
      if principal.Anonymous? {
        return Err(NotLoggedIn);
      }
      var userId := principal.userId;
      if userId !in users {
        return Err(UserNotFound);
      }
      var key := Like(userId, articleId);
      var liked := key in likes;
      if articleId !in articles {
        return Err(ArticleNotFound);
      }
      var article := articles[articleId];
      if article.writerId == userId {
        return Err(SelfLike);
      }
      if liked {
        likes := likes - {key};
        articles := articles[articleId := article.(likeCount := article.likeCount - 1)];
        r := Ok(OutcomeMessage(Removed));
      } else {
        articles := articles[articleId := article.(likeCount := article.likeCount + 1)];
        likes := likes + {key};
        r := Ok(OutcomeMessage(Added));
      }
    }
  }
}

=== FILE: refresh_rotation.dfy ===
/**
 * Refresh-token rotation: the refresh endpoint reads the `refresh`
 * cookie, rejects a missing, expired, wrongly-categorised or unknown
 * token, and otherwise replaces the stored token by a newly minted one
 * and hands out a new access token and refresh cookie.
 *
 * Signing is not modelled: a token is its claims. Times are milliseconds.
 */
module RefreshRotation {
  import opened Domain

  datatype Claims = Claims(
    category: string, userId: UserId, username: string, role: string,
    issuedAt: int, expiration: int)

  /** A token string: one the JWT utility signed and can verify, or any other text. */
  datatype Jwt = Signed(claims: Claims) | Unverifiable(text: string)

  /** A servlet cookie and the attributes the controller sets on it. */
  datatype Cookie = Cookie(name: string, value: Jwt, maxAge: int, path: Option<string>, httpOnly: bool, secure: bool)

  const AccessTtlMs: int := 60 * 60 * 1000
  const RefreshTtlMs: int := 86400000
  const RefreshCategory: string := "refresh"
  const AccessCategory: string := "access"
  /** The name of the cookie that carries the refresh token. */
  const RefreshCookieName: string := "refresh"

  /** `createJwt`: a token of the given category for the user, valid for `expiredMs` from `now`. */
  function CreateJwt(category: string, userId: UserId, username: string, role: string, expiredMs: int, now: int): Jwt {
    Signed(Claims(category, userId, username, role, now, now + expiredMs))
  }

  /** The parser's expiry test: the token is expired once `now` is past its expiration. */
  predicate Expired(c: Claims, now: int) {
    c.expiration < now
  }

  /** A row of the refresh-token table. */
  datatype RefreshRecord = RefreshRecord(userId: UserId, username: string, refreshToken: Jwt, expiration: int)

  /** `existsByRefreshToken`. */
  predicate Stored(records: seq<RefreshRecord>, token: Jwt) {
    exists i :: 0 <= i < |records| && records[i].refreshToken == token
  }

  /** `deleteByRefreshToken`: every row of the token goes, the others stay in order. */
  function RemoveToken(records: seq<RefreshRecord>, token: Jwt): (r: seq<RefreshRecord>)
    ensures forall x :: x in r <==> x in records && x.refreshToken != token
    ensures !Stored(r, token)
  {
    if records == [] then []
    else
      var rest := RemoveToken(records[..|records| - 1], token);
      var x := records[|records| - 1];
      assert forall y :: y in records <==> y in records[..|records| - 1] || y == x;
      if x.refreshToken == token then rest else rest + [x]
  }

  lemma StoredMeansIn(records: seq<RefreshRecord>, token: Jwt)
    ensures Stored(records, token) <==> exists x :: x in records && x.refreshToken == token
  {
    if exists x :: x in records && x.refreshToken == token {
      var x :| x in records && x.refreshToken == token;
      var i :| 0 <= i < |records| && records[i] == x;
    }
  }

  // ---------------------------------------------------------------
  // Reading the cookie
  // ---------------------------------------------------------------

  /** The value of the last cookie named `refresh`, if any. */
  function LastRefresh(cookies: seq<Cookie>): (v: Option<Jwt>)
    ensures v.None? <==> forall i :: 0 <= i < |cookies| ==> cookies[i].name != RefreshCookieName
  {
    if cookies == [] then None
    else
      var last := cookies[|cookies| - 1];
      if last.name == RefreshCookieName then Some(last.value)
      else
        var v := LastRefresh(cookies[..|cookies| - 1]);
        assert forall i :: 0 <= i < |cookies| - 1 ==> cookies[..|cookies| - 1][i] == cookies[i];
        v
  }

  /** A value found is that of a `refresh` cookie after which no other `refresh` cookie follows. */
  lemma {:induction false} LastRefreshIsLast(cookies: seq<Cookie>)
    ensures LastRefresh(cookies).Some? ==>
      exists i :: 0 <= i < |cookies| && cookies[i].name == RefreshCookieName && cookies[i].value == LastRefresh(cookies).value
        && forall j :: i < j < |cookies| ==> cookies[j].name != RefreshCookieName
    decreases |cookies|
  {
    if cookies != [] {
      var n := |cookies| - 1;
      if cookies[n].name == RefreshCookieName {
        assert cookies[n].value == LastRefresh(cookies).value;
      } else {
        var init := cookies[..n];
        LastRefreshIsLast(init);
        if LastRefresh(init).Some? {
          var i :| 0 <= i < |init| && init[i].name == RefreshCookieName && init[i].value == LastRefresh(init).value
            && forall j :: i < j < |init| ==> init[j].name != RefreshCookieName;
          assert cookies[i] == init[i];
          assert forall j :: i < j < |cookies| ==> cookies[j].name != RefreshCookieName by {
            forall j | i < j < |cookies|
              ensures cookies[j].name != RefreshCookieName
            {
              if j < n {
                assert cookies[j] == init[j];
              }
            }
          }
        }
      }
    }
  }

  /** The token the request presents: none when the cookie array itself is null. */
  function PresentedToken(cookies: Option<seq<Cookie>>): Option<Jwt> {
    if cookies.None? then None else LastRefresh(cookies.value)
  }

  // ---------------------------------------------------------------
  // The rotation rule
  // ---------------------------------------------------------------

  /** Why a refresh request is refused; `Unreadable` is a token the JWT parser cannot verify. */
  datatype Rejection = Missing | Unreadable | ExpiredToken | WrongCategory | NotStored

  function RejectionMessage(r: Rejection): string {
    match r
    case Missing => "refresh token 이 존재하지 않습니다."
    case ExpiredToken => "refresh token 이 만료되었습니다."
    case _ => "잘못된 refresh token 입니다."
  }

  /**
   * The checks of the refresh endpoint, in source order: presence, the
   * parser's expiry test, the category, the store.
   */
  function Validate(records: seq<RefreshRecord>, token: Option<Jwt>, now: int): (r: Result<Claims, Rejection>)
    ensures r == Err(Missing) <==> token.None?
    ensures r == Err(Unreadable) <==> token.Some? && token.value.Unverifiable?
    ensures r == Err(ExpiredToken) <==> token.Some? && token.value.Signed? && Expired(token.value.claims, now)
    ensures r == Err(WrongCategory) <==>
      token.Some? && token.value.Signed? && !Expired(token.value.claims, now)
      && token.value.claims.category != RefreshCategory
    ensures r == Err(NotStored) <==>
      token.Some? && token.value.Signed? && !Expired(token.value.claims, now)
      && token.value.claims.category == RefreshCategory && !Stored(records, token.value)
    ensures r.Ok? ==> token == Some(Signed(r.value)) && Stored(records, token.value)
  {
    match token
    case None => Err(Missing)
    case Some(Unverifiable(_)) => Err(Unreadable)
    case Some(Signed(c)) =>
      if Expired(c, now) then Err(ExpiredToken)
      else if c.category != RefreshCategory then Err(WrongCategory)
      else if !Stored(records, token.value) then Err(NotStored)
      else Ok(c)
  }

  /** The `Authorization` response header: the scheme "Bearer " followed by the encoded token. */
  datatype Header = Header(name: string, scheme: string, token: Jwt)

  datatype ApiResponse = ApiResponse(code: string, message: string)

  datatype RefreshResponse =
    | BadRequest(message: string)
    | Reissued(authorization: Header, refreshCookie: Cookie, body: ApiResponse)
    | ServerError          // the parser's exception escapes the controller

  /** `createCookie` as a value: Max-Age in whole seconds of the int-narrowed lifetime, path "/", HttpOnly. */
  function MakeCookie(key: string, value: Jwt, expiredMs: int): Cookie {
    Cookie(key, value, JavaDiv(ToInt32(expiredMs), 1000), Some("/"), true, false)
  }

  /** The new refresh token rotation mints from the claims of the presented one. */
  function NextRefresh(c: Claims, now: int): Jwt {
    CreateJwt(RefreshCategory, c.userId, c.username, c.role, RefreshTtlMs, now)
  }

  /** The whole effect of one call of the refresh endpoint: the response and the new token table. */
  function Rotate(records: seq<RefreshRecord>, token: Option<Jwt>, now: int): (res: (RefreshResponse, seq<RefreshRecord>))
    ensures res.0.Reissued? <==> Validate(records, token, now).Ok?
    ensures !res.0.Reissued? ==> res.1 == records
    ensures res.0 == ServerError <==> Validate(records, token, now) == Err(Unreadable)
    ensures res.0.BadRequest? ==>
      Validate(records, token, now).Err? && res.0.message == RejectionMessage(Validate(records, token, now).error)
  {
    match Validate(records, token, now)
    case Err(Unreadable) => (ServerError, records)
    case Err(e) => (BadRequest(RejectionMessage(e)), records)
    case Ok(c) =>
      var access := CreateJwt(AccessCategory, c.userId, c.username, c.role, AccessTtlMs, now);
      var refresh := NextRefresh(c, now);
      (Reissued(Header("Authorization", "Bearer ", access), MakeCookie(RefreshCookieName, refresh, RefreshTtlMs),
                ApiResponse("200", "토큰 재발급 성공")),
       RemoveToken(records, token.value) + [RefreshRecord(c.userId, c.username, refresh, now + RefreshTtlMs)])
  }

  /**
   * A successful rotation copies the user's identity into both new
   * tokens (access for an hour, refresh for a day), sends the access
   * token as a bearer header and the refresh token as an HttpOnly cookie
   * on path "/" that lives 86400 seconds, and replaces the presented
   * token's rows by one row for the new token.
   */
  lemma RotationReissues(records: seq<RefreshRecord>, token: Option<Jwt>, now: int)
    requires Validate(records, token, now).Ok?
    ensures var c := token.value.claims;
      var (resp, records') := Rotate(records, token, now);
      var refresh := NextRefresh(c, now);
      && resp.authorization == Header("Authorization", "Bearer ", Signed(Claims(AccessCategory, c.userId, c.username, c.role, now, now + 3600000)))
      && refresh == Signed(Claims(RefreshCategory, c.userId, c.username, c.role, now, now + 86400000))
      && resp.refreshCookie == Cookie(RefreshCookieName, refresh, 86400, Some("/"), true, false)
      && resp.refreshCookie.maxAge * 1000 == RefreshTtlMs
      && Stored(records', refresh)
      && records'[|records'| - 1] == RefreshRecord(c.userId, c.username, refresh, now + RefreshTtlMs)
      && (forall t :: t != token.value && t != refresh ==> (Stored(records', t) <==> Stored(records, t)))
  {
    var c := token.value.claims;
    var (resp, records') := Rotate(records, token, now);
    var refresh := NextRefresh(c, now);
    var kept := RemoveToken(records, token.value);
    assert records' == kept + [RefreshRecord(c.userId, c.username, refresh, now + RefreshTtlMs)];
    assert records'[|kept|].refreshToken == refresh;
    forall t | t != token.value && t != refresh
      ensures Stored(records', t) <==> Stored(records, t)
    {
      StoredMeansIn(records', t);
      StoredMeansIn(records, t);
      StoredMeansIn(kept, t);
    }
  }

  /**
   * Once rotated, the presented token is gone from the table, provided
   * the newly minted token is not the very same token (it was issued at
   * an earlier instant).
   */
  lemma RotationRetiresPresented(records: seq<RefreshRecord>, token: Option<Jwt>, now: int)
    requires Validate(records, token, now).Ok?
    requires token.value.claims.issuedAt != now
    ensures !Stored(Rotate(records, token, now).1, token.value)
  {
    var c := token.value.claims;
    var records' := Rotate(records, token, now).1;
    var kept := RemoveToken(records, token.value);
    StoredMeansIn(records', token.value);
    StoredMeansIn(kept, token.value);
  }

  /**
   * Replay: presenting the old token again after a successful rotation
   * is refused at any later time, at the store check while the token is
   * still unexpired, and the table is left alone.
   */
  lemma ReplayRejected(records: seq<RefreshRecord>, token: Option<Jwt>, now: int, later: int)
    requires Validate(records, token, now).Ok?
    requires token.value.claims.issuedAt != now
    ensures var records' := Rotate(records, token, now).1;
      && Rotate(records', token, later).0.BadRequest?
      && Rotate(records', token, later).1 == records'
      && (!Expired(token.value.claims, later) ==> Validate(records', token, later) == Err(NotStored))
  {
    RotationRetiresPresented(records, token, now);
  }

  /**
   * Rotation chains: the token handed out is itself accepted by the next
   * refresh, at any time up to its expiration.
   */
  lemma RotatedTokenAccepted(records: seq<RefreshRecord>, token: Option<Jwt>, now: int, later: int)
    requires Validate(records, token, now).Ok?
    requires later <= now + RefreshTtlMs
    ensures var refresh := NextRefresh(token.value.claims, now);
      Validate(Rotate(records, token, now).1, Some(refresh), later) == Ok(refresh.claims)
  {
    RotationReissues(records, token, now);
  }

  /** The repository of refresh-token rows. */
  class RefreshTokenRepository {
    var records: seq<RefreshRecord>

    constructor (records: seq<RefreshRecord>)
      ensures this.records == records
    {
      this.records := records;
    }

    method DeleteByRefreshToken(token: Jwt)
      modifies this
      ensures records == RemoveToken(old(records), token)
    {
      records := RemoveToken(records, token);
    }

    method Save(record: RefreshRecord)
      modifies this
      ensures records == old(records) + [record]
    {
      records := records + [record];
    }
  }

  /** The refresh endpoint's controller. */
  class RefreshTokenController {
    const repository: RefreshTokenRepository

    constructor (repository: RefreshTokenRepository)
      ensures this.repository == repository
    {
      this.repository := repository;
    }

    /** The loop over the request's cookies: the value of the last one named `refresh`. */
    method ExtractRefreshToken(cookies: Option<seq<Cookie>>) returns (token: Option<Jwt>)
      ensures token == PresentedToken(cookies)
    {
      token := None;
      if cookies.Some? {
        var cs := cookies.value;
        for i := 0 to |cs|
          invariant token == LastRefresh(cs[..i])
        {
          assert cs[..i + 1][..i] == cs[..i];
          if cs[i].name == RefreshCookieName {
            token := Some(cs[i].value);
          }
        }
        assert cs[..|cs|] == cs;
      }
    }

    /** `addRefreshEntity`: saves a row for the token, expiring `expiredMs` from `now`. */
    method AddRefreshEntity(userId: UserId, username: string, refresh: Jwt, expiredMs: int, now: int)
      modifies repository
      ensures repository.records == old(repository.records) + [RefreshRecord(userId, username, refresh, now + expiredMs)]
    {
      var record := RefreshRecord(userId, username, refresh, now + expiredMs);
      repository.Save(record);
    }

    /** `createCookie`: a new cookie whose attributes are set one by one. */
    method CreateCookie(key: string, value: Jwt, expiredMs: int) returns (cookie: Cookie)
      ensures cookie == MakeCookie(key, value, expiredMs)
    {
      cookie := Cookie(key, value, -1, None, false, false);
      cookie := cookie.(maxAge := JavaDiv(ToInt32(expiredMs), 1000));
      cookie := cookie.(path := Some("/"));
      cookie := cookie.(httpOnly := true);
    }

    /** `refreshToken`: validates the presented token and rotates it. */
    method RefreshToken(cookies: Option<seq<Cookie>>, now: int) returns (response: RefreshResponse)
      modifies repository
      ensures (response, repository.records) == Rotate(old(repository.records), PresentedToken(cookies), now)
    {
      var refreshToken := ExtractRefreshToken(cookies);
      if refreshToken.None? {
        return BadRequest(RejectionMessage(Missing));
      }
      var token := refreshToken.value;
      if token.Unverifiable? {
        return ServerError;
      }
      var claims := token.claims;
      if Expired(claims, now) {
        return BadRequest(RejectionMessage(ExpiredToken));
      }
      if claims.category != RefreshCategory {
        return BadRequest(RejectionMessage(WrongCategory));
      }
      var isExist := Stored(repository.records, token);
      if !isExist {
        return BadRequest(RejectionMessage(NotStored));
      }
      var newAccess := CreateJwt(AccessCategory, claims.userId, claims.username, claims.role, AccessTtlMs, now);
      var newRefresh := CreateJwt(RefreshCategory, claims.userId, claims.username, claims.role, RefreshTtlMs, now);
      repository.DeleteByRefreshToken(token);
      AddRefreshEntity(claims.userId, claims.username, newRefresh, RefreshTtlMs, now);
      var cookie := CreateCookie(RefreshCookieName, newRefresh, RefreshTtlMs);
      response := Reissued(Header("Authorization", "Bearer ", newAccess), cookie, ApiResponse("200", "토큰 재발급 성공"));
    }
  }
}

=== FILE: user_listing.dfy ===
/**
 * The pure helpers of the user service's listing endpoints: the choice
 * of query order from the `sorting` request parameter, the "time ago"
 * label of a listing row, and the decoding of the positional rows that
 * the listing queries return.
 */
module UserListing {
  import opened Domain
  import JavaText

  // ---------------------------------------------------------------
  // Sort dispatch
  // ---------------------------------------------------------------

  /** The three orders the listing queries come in. */
  datatype SortOrder = Latest | PriceDescending | PriceAscending

  /**
   * The `switch (sorting)` of every listing endpoint: "high-price" and
   * "low-price" pick the price orders, "latest" and every other value
   * fall back to the latest-first query.
   */
  function SortFor(sorting: string): (order: SortOrder)
    ensures order == PriceDescending <==> sorting == "high-price"
    ensures order == PriceAscending <==> sorting == "low-price"
    ensures order == Latest <==> sorting != "high-price" && sorting != "low-price"
  {
    match sorting
    case "latest" => Latest
    case "high-price" => PriceDescending
    case "low-price" => PriceAscending
    case _ => Latest
  }

  /** The request value a client sends to ask for an order. */
  function SortKey(order: SortOrder): string {
    match order
    case Latest => "latest"
    case PriceDescending => "high-price"
    case PriceAscending => "low-price"
  }

  /** Every order is reachable, by its own key. */
  lemma SortKeySelectsOrder(order: SortOrder)
    ensures SortFor(SortKey(order)) == order
    ensures forall other: SortOrder :: SortKey(other) == SortKey(order) ==> other == order
  {
  }

  /**
   * The query a user's sales listing runs: the viewer-aware family (its
   * rows carry the viewer's `isLiked` column) for a logged-in caller, the
   * plain family for an anonymous one, each in the order of `sorting`.
   */
  datatype SalesQuery = SalesQuery(viewer: Option<UserId>, order: SortOrder)

  function UserSalesQuery(principal: Principal, sorting: string): (q: SalesQuery)
    ensures q.viewer.Some? <==> principal.LoggedIn?
    ensures principal.LoggedIn? ==> q.viewer.value == principal.userId
    ensures q.order == SortFor(sorting)
  {
    match principal
    case LoggedIn(viewer) => SalesQuery(Some(viewer), SortFor(sorting))
    case Anonymous => SalesQuery(None, SortFor(sorting))
  }

  // ---------------------------------------------------------------
  // Time-ago labels
  // ---------------------------------------------------------------

  datatype TimeUnit = Seconds | Minutes | Hours | Days

  /** A whole number of some unit: what a time-ago label says. */
  datatype Elapsed = Elapsed(amount: int, unit: TimeUnit)

  const SecondsPerMinute: int := 60
  const SecondsPerHour: int := 3600
  const SecondsPerDay: int := 86400

  /**
   * The bucket of an elapsed number of seconds: seconds below a minute
   * (negative values included), whole minutes below an hour, whole hours
   * below a day, whole days otherwise. Minutes, hours and days are
   * narrowed to a Java int.
   */
  function Bucket(seconds: int): (e: Elapsed)
    ensures e.unit == Seconds <==> seconds < SecondsPerMinute
    ensures e.unit == Seconds ==> e.amount == seconds
    ensures e.unit == Minutes <==> SecondsPerMinute <= seconds < SecondsPerHour
    ensures e.unit == Minutes ==>
      1 <= e.amount <= 59 && e.amount * SecondsPerMinute <= seconds < (e.amount + 1) * SecondsPerMinute
    ensures e.unit == Hours <==> SecondsPerHour <= seconds < SecondsPerDay
    ensures e.unit == Hours ==>
      1 <= e.amount <= 23 && e.amount * SecondsPerHour <= seconds < (e.amount + 1) * SecondsPerHour
    ensures e.unit == Days <==> SecondsPerDay <= seconds
    ensures e.unit == Days && seconds < SecondsPerDay * TwoTo31 ==>
      1 <= e.amount && e.amount * SecondsPerDay <= seconds < (e.amount + 1) * SecondsPerDay
  {
    if seconds < SecondsPerMinute then Elapsed(seconds, Seconds)
    else if seconds < SecondsPerHour then Elapsed(ToInt32(seconds / SecondsPerMinute), Minutes)
    else if seconds < SecondsPerDay then Elapsed(ToInt32(seconds / SecondsPerHour), Hours)
    else Elapsed(ToInt32(seconds / SecondsPerDay), Days)
  }

  function Suffix(unit: TimeUnit): string {
    match unit
    case Seconds => "초 전"
    case Minutes => "분 전"
    case Hours => "시간 전"
    case Days => "일 전"
  }

  function UnitOfSuffix(s: string): Option<TimeUnit> {
    if s == Suffix(Seconds) then Some(Seconds)
    else if s == Suffix(Minutes) then Some(Minutes)
    else if s == Suffix(Hours) then Some(Hours)
    else if s == Suffix(Days) then Some(Days)
    else None
  }

  /** The label text: the number as Java prints it, then the unit's suffix. */
  function LabelText(e: Elapsed): string {
    JavaText.LongToString(e.amount) + Suffix(e.unit)
  }

  /** `getTimeAgo`: the label for a row created at `createdDate`, seen at `now` (both in seconds). */
  function GetTimeAgo(createdDate: int, now: int): string {
    LabelText(Bucket(now - createdDate))
  }

  /** Reads a label back into its number and unit. */
  function ParseLabel(s: string): Option<Elapsed> {
    var k := JavaText.NumberPrefixLength(s);
    match JavaText.ParseLong(s[..k])
    case None => None
    case Some(n) =>
      match UnitOfSuffix(s[k..])
      case None => None
      case Some(u) => Some(Elapsed(n, u))
  }

  /** No two buckets share a label: the label text reads back to the bucket it came from. */
  lemma LabelRoundTrip(e: Elapsed)
    ensures ParseLabel(LabelText(e)) == Some(e)
  {
    var d := JavaText.LongToString(e.amount);
    var t := Suffix(e.unit);
    JavaText.NumberPrefixOfLong(e.amount, t);
    var s := d + t;
    assert s[..|d|] == d;
    assert s[|d|..] == t;
    JavaText.LongToStringRoundTrip(e.amount);
  }

  /** What `getTimeAgo` tells the client is exactly the bucket of the elapsed seconds. */
  lemma GetTimeAgoReadsBack(createdDate: int, now: int)
    ensures ParseLabel(GetTimeAgo(createdDate, now)) == Some(Bucket(now - createdDate))
  {
    LabelRoundTrip(Bucket(now - createdDate));
  }

  // ---------------------------------------------------------------
  // Positional row decoding
  // ---------------------------------------------------------------

  /** One column value of a query row (`Object[]`); a SQL null is NullCell. */
  datatype Cell =
    | NullCell
    | LongCell(l: int)
    | IntegerCell(n: int)
    | StringCell(s: string)
    | StatusCell(status: TradeStatus)
    | DateTimeCell(t: int)
    | BooleanCell(b: bool)

  /** The Java type a column is cast to. */
  datatype ColumnType = LongColumn | IntegerColumn | StringColumn | StatusColumn | DateTimeColumn | BooleanColumn

  /** Whether the cast of a cell to a column type succeeds; null casts to every type. */
  predicate Casts(c: Cell, t: ColumnType) {
    match c
    case NullCell => true
    case LongCell(_) => t == LongColumn
    case IntegerCell(_) => t == IntegerColumn
    case StringCell(_) => t == StringColumn
    case StatusCell(_) => t == StatusColumn
    case DateTimeCell(_) => t == DateTimeColumn
    case BooleanCell(_) => t == BooleanColumn
  }

  /** The exceptions a decoder throws: an index past the row, a failed cast, a null creation date. */
  datatype DecodeError = IndexOutOfBounds(index: int) | ClassCast(index: int) | NullPointer

  /** id, title, price, addr1, addr2, tradeStatus, createdDate, thumbnailUrl. */
  const ArticleColumns: seq<ColumnType> :=
    [LongColumn, StringColumn, IntegerColumn, StringColumn, StringColumn, StatusColumn, DateTimeColumn, StringColumn]

  /**
   * The exception reading columns `from` onwards, in order, throws: the
   * first index past the end of the row or the first cast that fails.
   */
  function FirstFault(row: seq<Cell>, types: seq<ColumnType>, from: nat): (f: Option<DecodeError>)
    requires from <= |types| && from <= |row|
    ensures f.None? <==> |types| <= |row| && forall i :: from <= i < |types| ==> Casts(row[i], types[i])
    ensures f.Some? && f.value.IndexOutOfBounds? ==>
      f.value.index == |row| < |types| && forall i :: from <= i < |row| ==> Casts(row[i], types[i])
    ensures f.Some? && f.value.ClassCast? ==>
      var k := f.value.index;
      from <= k < |row| && k < |types| && !Casts(row[k], types[k]) &&
      forall i :: from <= i < k ==> Casts(row[i], types[i])
    ensures f != Some(NullPointer)
    decreases |types| - from
  {
    if from == |types| then None
    else if from == |row| then Some(IndexOutOfBounds(from))
    else if !Casts(row[from], types[from]) then Some(ClassCast(from))
    else FirstFault(row, types, from + 1)
  }

  function LongOf(c: Cell): Option<int> requires Casts(c, LongColumn) {
    if c.LongCell? then Some(c.l) else None
  }
  function IntegerOf(c: Cell): Option<int> requires Casts(c, IntegerColumn) {
    if c.IntegerCell? then Some(c.n) else None
  }
  function StringOf(c: Cell): Option<string> requires Casts(c, StringColumn) {
    if c.StringCell? then Some(c.s) else None
  }
  function StatusOf(c: Cell): Option<TradeStatus> requires Casts(c, StatusColumn) {
    if c.StatusCell? then Some(c.status) else None
  }
  function BooleanOf(c: Cell): Option<bool> requires Casts(c, BooleanColumn) {
    if c.BooleanCell? then Some(c.b) else None
  }

  datatype MySalesResponse = MySalesResponse(
    id: Option<int>, title: Option<string>, price: Option<int>,
    addr1: Option<string>, addr2: Option<string>, tradeStatus: Option<TradeStatus>,
    timeAgo: string, thumbnailUrl: Option<string>, isLiked: Option<bool>)

  datatype MyBuysResponse = MyBuysResponse(
    id: Option<int>, title: Option<string>, price: Option<int>,
    addr1: Option<string>, addr2: Option<string>, tradeStatus: Option<TradeStatus>,
    timeAgo: string, thumbnailUrl: Option<string>, isLiked: Option<bool>, isReviewed: Option<bool>)

  /** `createResponse`: eight positional columns, then `isLiked` only when the row is longer. */
  function CreateResponse(row: seq<Cell>, now: int): (r: Result<MySalesResponse, DecodeError>)
    ensures r.Ok? <==>
      && |row| >= 8
      && (forall i :: 0 <= i < 8 ==> Casts(row[i], ArticleColumns[i]))
      && (|row| > 8 ==> Casts(row[8], BooleanColumn))
      && !row[6].NullCell?
    ensures (|row| < 8 && forall i :: 0 <= i < |row| ==> Casts(row[i], ArticleColumns[i])) ==>
      r == Err(IndexOutOfBounds(|row|))
    ensures r.Ok? ==> (r.value.isLiked.Some? ==> |row| > 8) && (|row| == 8 ==> r.value.isLiked.None?)
  {
    var types := ArticleColumns + (if |row| > 8 then [BooleanColumn] else []);
    match FirstFault(row, types, 0)
    case Some(e) => Err(e)
    case None =>
      assert forall i :: 0 <= i < 8 ==> types[i] == ArticleColumns[i];
      if row[6].NullCell? then Err(NullPointer)
      else Ok(MySalesResponse(
        LongOf(row[0]), StringOf(row[1]), IntegerOf(row[2]), StringOf(row[3]), StringOf(row[4]),
        StatusOf(row[5]), GetTimeAgo(row[6].t, now), StringOf(row[7]),
        if |row| > 8 then BooleanOf(row[8]) else None))
  }

  /** `createBuysResponse`: as `createResponse`, then `isReviewed` only when the row has more than nine columns. */
  function CreateBuysResponse(row: seq<Cell>, now: int): (r: Result<MyBuysResponse, DecodeError>)
    ensures r.Ok? <==>
      && |row| >= 8
      && (forall i :: 0 <= i < 8 ==> Casts(row[i], ArticleColumns[i]))
      && (|row| > 8 ==> Casts(row[8], BooleanColumn))
      && (|row| > 9 ==> Casts(row[9], BooleanColumn))
      && !row[6].NullCell?
    ensures (|row| < 8 && forall i :: 0 <= i < |row| ==> Casts(row[i], ArticleColumns[i])) ==>
      r == Err(IndexOutOfBounds(|row|))
    ensures r.Ok? ==> (r.value.isReviewed.Some? ==> |row| > 9) && (r.value.isLiked.Some? ==> |row| > 8)
  {
    var types := ArticleColumns
      + (if |row| > 8 then [BooleanColumn] else [])
      + (if |row| > 9 then [BooleanColumn] else []);
    assert |row| < 8 ==> types == ArticleColumns;
    match FirstFault(row, types, 0)
    case Some(e) => Err(e)
    case None =>
      assert forall i :: 0 <= i < 8 ==> types[i] == ArticleColumns[i];
      assert |row| > 9 ==> types[9] == BooleanColumn;
      if row[6].NullCell? then Err(NullPointer)
      else Ok(MyBuysResponse(
        LongOf(row[0]), StringOf(row[1]), IntegerOf(row[2]), StringOf(row[3]), StringOf(row[4]),
        StatusOf(row[5]), GetTimeAgo(row[6].t, now), StringOf(row[7]),
        if |row| > 8 then BooleanOf(row[8]) else None,
        if |row| > 9 then BooleanOf(row[9]) else None))
  }

  /**
   * A listing row as the queries project it, before it is flattened into
   * columns. Every column but the creation date may be SQL null (an
   * article without images has no thumbnail, `addr2` is optional).
   */
  datatype ArticleRow = ArticleRow(
    id: Option<int>, title: Option<string>, price: Option<int>, addr1: Option<string>, addr2: Option<string>,
    tradeStatus: Option<TradeStatus>, createdDate: int, thumbnailUrl: Option<string>)

  function LongCellOf(v: Option<int>): Cell { if v.Some? then LongCell(v.value) else NullCell }
  function IntegerCellOf(v: Option<int>): Cell { if v.Some? then IntegerCell(v.value) else NullCell }
  function StringCellOf(v: Option<string>): Cell { if v.Some? then StringCell(v.value) else NullCell }
  function StatusCellOf(v: Option<TradeStatus>): Cell { if v.Some? then StatusCell(v.value) else NullCell }
  function BooleanCellOf(v: Option<bool>): Cell { if v.Some? then BooleanCell(v.value) else NullCell }

  /** The eight positional columns of a projected row. */
  function Cells(a: ArticleRow): seq<Cell> {
    [LongCellOf(a.id), StringCellOf(a.title), IntegerCellOf(a.price), StringCellOf(a.addr1), StringCellOf(a.addr2),
     StatusCellOf(a.tradeStatus), DateTimeCell(a.createdDate), StringCellOf(a.thumbnailUrl)]
  }

  /** Trailing Boolean columns (`isLiked`, then `isReviewed`), each possibly null; the list may be empty. */
  function FlagCells(flags: seq<Option<bool>>): (cs: seq<Cell>)
    ensures |cs| == |flags|
    ensures forall i :: 0 <= i < |flags| ==> cs[i] == BooleanCellOf(flags[i])
  {
    seq(|flags|, i requires 0 <= i < |flags| => BooleanCellOf(flags[i]))
  }

  /** Each of the eight columns casts to its type and reads back the field it came from. */
  lemma CellsDecode(a: ArticleRow)
    ensures var c := Cells(a);
      && |c| == 8
      && (forall i :: 0 <= i < 8 ==> Casts(c[i], ArticleColumns[i]))
      && LongOf(c[0]) == a.id && StringOf(c[1]) == a.title && IntegerOf(c[2]) == a.price
      && StringOf(c[3]) == a.addr1 && StringOf(c[4]) == a.addr2 && StatusOf(c[5]) == a.tradeStatus
      && c[6] == DateTimeCell(a.createdDate) && StringOf(c[7]) == a.thumbnailUrl
  {
  }

  /** A trailing flag column casts to Boolean and reads back its flag. */
  lemma FlagDecodes(v: Option<bool>)
    ensures Casts(BooleanCellOf(v), BooleanColumn) && BooleanOf(BooleanCellOf(v)) == v
  {
  }

  /** Proof step of `CreateResponseReadsColumns`: an accepted sales row's fields, unfolded. */
  lemma CreateResponseFields(row: seq<Cell>, now: int)
    requires CreateResponse(row, now).Ok?
    ensures |row| >= 8 && row[6].DateTimeCell?
    ensures CreateResponse(row, now).value == MySalesResponse(
      LongOf(row[0]), StringOf(row[1]), IntegerOf(row[2]), StringOf(row[3]), StringOf(row[4]),
      StatusOf(row[5]), GetTimeAgo(row[6].t, now), StringOf(row[7]),
      if |row| > 8 then BooleanOf(row[8]) else None)
  {
  }

  /** Proof step of `CreateBuysResponseReadsColumns`: an accepted purchases row's fields, unfolded. */
  lemma CreateBuysResponseFields(row: seq<Cell>, now: int)
    requires CreateBuysResponse(row, now).Ok?
    ensures |row| >= 8 && row[6].DateTimeCell?
    ensures CreateBuysResponse(row, now).value == MyBuysResponse(
      LongOf(row[0]), StringOf(row[1]), IntegerOf(row[2]), StringOf(row[3]), StringOf(row[4]),
      StatusOf(row[5]), GetTimeAgo(row[6].t, now), StringOf(row[7]),
      if |row| > 8 then BooleanOf(row[8]) else None,
      if |row| > 9 then BooleanOf(row[9]) else None)
  {
  }

  /** The flattened projected row: eight typed columns that read back their fields, then the flags. */
  lemma ProjectedRowDecodes(a: ArticleRow, flags: seq<Option<bool>>)
    ensures var row := Cells(a) + FlagCells(flags);
      && |row| == 8 + |flags| && row[6] == DateTimeCell(a.createdDate)
      && (forall i :: 0 <= i < 8 ==> Casts(row[i], ArticleColumns[i]))
      && LongOf(row[0]) == a.id && StringOf(row[1]) == a.title && IntegerOf(row[2]) == a.price
      && StringOf(row[3]) == a.addr1 && StringOf(row[4]) == a.addr2 && StatusOf(row[5]) == a.tradeStatus
      && StringOf(row[7]) == a.thumbnailUrl
      && (forall k :: 0 <= k < |flags| ==> Casts(row[8 + k], BooleanColumn) && BooleanOf(row[8 + k]) == flags[k])
  {
    var c := Cells(a);
    var row := c + FlagCells(flags);
    CellsDecode(a);
    assert forall i :: 0 <= i < 8 ==> row[i] == c[i];
    forall k | 0 <= k < |flags|
      ensures Casts(row[8 + k], BooleanColumn) && BooleanOf(row[8 + k]) == flags[k]
    {
      assert row[8 + k] == BooleanCellOf(flags[k]);
      FlagDecodes(flags[k]);
    }
  }

  /**
   * Every column of a projected row lands in the response field of the
   * same name, nulls included, and `isLiked` is the first trailing flag
   * when there is one and null when the row has only eight columns.
   */
  lemma CreateResponseReadsColumns(a: ArticleRow, flags: seq<Option<bool>>, now: int)
    ensures CreateResponse(Cells(a) + FlagCells(flags), now)
      == Ok(MySalesResponse(a.id, a.title, a.price, a.addr1, a.addr2,
                            a.tradeStatus, GetTimeAgo(a.createdDate, now), a.thumbnailUrl,
                            if |flags| > 0 then flags[0] else None))
  {
    var row := Cells(a) + FlagCells(flags);
    ProjectedRowDecodes(a, flags);
    assert |flags| > 0 ==> Casts(row[8 + 0], BooleanColumn);
    CreateResponseFields(row, now);
  }

  /**
   * The same for the purchases listing: `isLiked` and `isReviewed` are the
   * first and second trailing flags when present, and null otherwise.
   */
  lemma CreateBuysResponseReadsColumns(a: ArticleRow, flags: seq<Option<bool>>, now: int)
    ensures CreateBuysResponse(Cells(a) + FlagCells(flags), now)
      == Ok(MyBuysResponse(a.id, a.title, a.price, a.addr1, a.addr2,
                           a.tradeStatus, GetTimeAgo(a.createdDate, now), a.thumbnailUrl,
                           if |flags| > 0 then flags[0] else None,
                           if |flags| > 1 then flags[1] else None))
  {
    var row := Cells(a) + FlagCells(flags);
    ProjectedRowDecodes(a, flags);
    assert |flags| > 0 ==> Casts(row[8 + 0], BooleanColumn);
    assert |flags| > 1 ==> Casts(row[8 + 1], BooleanColumn);
    CreateBuysResponseFields(row, now);
  }

  /** A row the purchases decoder accepts is accepted by the sales decoder, with the same shared fields. */
  lemma BuysDecodingExtendsSales(row: seq<Cell>, now: int)
    requires CreateBuysResponse(row, now).Ok?
    ensures CreateResponse(row, now).Ok?
    ensures var b, s := CreateBuysResponse(row, now).value, CreateResponse(row, now).value;
      s == MySalesResponse(b.id, b.title, b.price, b.addr1, b.addr2, b.tradeStatus, b.timeAgo, b.thumbnailUrl, b.isLiked)
  {
  }
}
